=== FILE: README.md ===
# Melbourne event finder: the pure core in Dafny

The system is a small assistant for finding events and news in Melbourne.
A language model is offered four tools:

- an event search;
- a news search;
- a file export;
- a keyword budget analysis.

The model proposes tool calls. `run_agent` executes the proposals and
combines their results into one text block. A second model call then turns
that block into a structured answer. Two front ends build the query text:
a web form and a console menu.

This project models the logic that remains once the model, the network,
the clock and the file system are taken out:

- `wrappers.dfy` (`Wrappers`): `Option` and `Result`.
- `text.dfy` (`Text`): the Python string operations the core uses. These
  are `lower`, `split('\n')`, `join`, `strip`, substring `in`, `str(n)`
  and `c * n`. Each has a contract, and split and join are proved inverse.
- `budget.dfy` (`Budget`): `analyze_event_budget`. It covers line
  classification with the free check first, the single-pass bucketing
  against a reference filter, and the report with full counts and at most
  five listed lines.
- `search.dfy` (`Search`): `search_local_events` and `search_melbourne_news`.
  These expand a query into fixed variants and run every variant. Each
  variant contributes one entry, whether its search succeeded or failed.
- `persist.dfy` (`Persist`): `save_events`. It covers the file name, the
  document template and the error message returned on a failed write.
- `dispatch.dfy` (`Dispatch`): the tool-dispatch loop of `run_agent`.
  `app.py` and `main.py` implement this loop the same way apart from the
  console's progress prints (`main.py:98`, `:104`, `:112`, `:116`), so it
  is modelled once. Unknown names are skipped, the first tool with the name is run, and
  a raised error becomes an entry. An empty result gives the
  `"No tools were executed."` placeholder.
- `forms.dfy` (`Forms`): query construction. The web form validates its
  input and the console menu does not. A lemma proves that, when the
  console's budget answer is the slider's number, both front ends build the
  same query, and the web form sends it whenever its shown fields are
  filled.

External behaviour enters only as parameters:

- a web search is a function from query text to `Found(text)` or
  `Failed(reason)`;
- a tool run is a function from the run's position in the batch, the tool
  and its arguments to `Returned(text)` or `Raised(message)`;
- the two clock readings in `save_events` are already-formatted strings;
- the file write is `Written` or `WriteFailed(reason)`.

## Model

| member | source | states |
|---|---|---|
| `Text.Lower` | AI_Agent/tools.py:127 | Lower-casing keeps the length and turns each ASCII capital into its lower-case letter, so `FREE` becomes `free`. It changes no other character. |
| `Text.Join` | AI_Agent/tools.py:37 | Joining no parts gives the empty string, and one part is returned unchanged. Otherwise the result starts with the first part and the separator, and its length is that of all the parts plus one separator between each two neighbours. Every part occurs in the result. |
| `Text.Split` | AI_Agent/tools.py:127 | Splitting on `'\n'` gives at least one piece. No piece holds the separator. Joining the pieces with the separator gives back the input. |
| `Text.SplitJoin` | AI_Agent/tools.py:141 | Splitting a `'\n'`-join of separator-free lines gives back exactly those lines. So a listing can be read back line by line. |
| `Text.Contains` | AI_Agent/tools.py:132-134 | `k in s` holds exactly when `k` occurs at some index of `s`. |
| `Text.Strip` | AI_Agent/tools.py:133-135 | The stripped line is a slice of the line. Only whitespace lies outside it, and it neither begins nor ends with whitespace. |
| `Text.StripKeepsOccurrences` | AI_Agent/tools.py:132-135 | A pattern with non-blank ends occurs in the stripped line exactly when it occurs in the original line. |
| `Text.Repeat` | AI_Agent/tools.py:37 | `c * n` has length `n` and every character is `c`. |
| `Text.NatToString` | AI_Agent/tools.py:140 | `str(n)` gives non-empty decimal digits with no leading zero, and they read back as `n`. |
| `Budget.MentionsAny` | AI_Agent/tools.py:132 | `any(keyword in line ...)` holds exactly when some keyword of the list occurs in the line. |
| `Budget.FreeCheckComesFirst` | AI_Agent/tools.py:131-135 | A single line lands in at most one bucket. It goes to the free bucket whenever it holds a free keyword, even if it also holds a paid one. It goes to the paid bucket only when it holds a paid keyword and no free one, and to neither bucket otherwise. |
| `Budget.MixedLineIsFree` | AI_Agent/tools.py:124-133 | "free entry but $5 donation" lands in the free bucket only. |
| `Budget.Classify` | AI_Agent/tools.py:131-135 | A line is free exactly when it holds a free keyword, paid exactly when it holds a paid keyword and no free one, and goes to no bucket exactly when it holds neither. |
| `Budget.Place` | AI_Agent/tools.py:131-135 | One turn of the loop appends the stripped line to the bucket its category selects and leaves the other bucket as it was. |
| `Budget.FillBuckets` | AI_Agent/tools.py:127-135 | The single loop puts into each bucket exactly the stripped lines of that category, in input order, as the reference filter `Select` gives them. |
| `Budget.BucketsPartitionLines` | AI_Agent/tools.py:127-135 | Every line is counted once: free, paid or dropped. So free plus paid never exceeds the number of lines. |
| `Budget.StripKeepsCategory` | AI_Agent/tools.py:131-135 | Stripping never changes a line's category, so every listed line belongs to the bucket it is listed under. |
| `Budget.Shown` | AI_Agent/tools.py:141-144 | At most five lines are shown. They are the bucket's first lines, and all of them are shown when the bucket has five or fewer. |
| `Budget.Listing` | AI_Agent/tools.py:141-144 | An empty bucket shows its notice. Otherwise, splitting the listing on line feeds gives back the shown lines. |
| `Budget.SectionReadsBack` | AI_Agent/tools.py:140-144 | Each section can be read back as the bucket's full count followed by its listing. |
| `Budget.SectionListsFirstFive` | AI_Agent/tools.py:127-144 | Each section reports the bucket's full size. It lists the first five lines of the bucket, lower-cased and stripped, each of that bucket's category. An empty bucket shows the fixed notice instead. |
| `Budget.AnalyzeEventBudget` | AI_Agent/tools.py:114-149 | The report is the budget header followed by the free and paid sections and the tip. The sections are built from the reference buckets. |
| `Budget.AnalyzeWithDefaultBudget` | AI_Agent/tools.py:115 | A call without `max_budget` reports against the default `100`. Its findings are the same as for any stated budget. |
| `Budget.BudgetOnlyInHeader` | AI_Agent/tools.py:115-138 | Two reports for different budgets are identical after their headers. The budget affects no bucket and no count. |
| `Search.EventVariants` | AI_Agent/tools.py:16-26 | The event search has exactly five variants, in fixed order. Each variant contains the query. |
| `Search.NewsVariants` | AI_Agent/tools.py:50-57 | The news search has exactly three variants, in fixed order. Each variant contains the topic. |
| `Search.VariantsDistinct` | AI_Agent/tools.py:20-26 | The variants of one query are pairwise distinct. |
| `Search.EntryShowsOutcome` | AI_Agent/tools.py:30-35 | An entry opens with the failure wording exactly when its search failed. |
| `Search.RunVariants` | AI_Agent/tools.py:28-35 | Every variant is searched, in order. Each contributes exactly one entry, its results or its failure message. |
| `Search.RunSearchTool` | AI_Agent/tools.py:28-37 | The result is `"\n\n"` and 60 `=` followed by the per-variant entries joined by blank lines. |
| `Search.FailureDoesNotStopLaterVariants` | AI_Agent/tools.py:59-68 | A failure leaves the entries of the other variants unchanged. The failure-shaped entries are exactly the failed variants. |
| `Persist.FileNameReadsBack` | AI_Agent/tools.py:81-82 | The timestamp can be read back from the file name, so different timestamps give different files. |
| `Persist.SaveEvents` | AI_Agent/tools.py:81-110 | The file name carries the timestamp. The document holds the saved text verbatim, and it can be read back between the banners. The message names the file, or reports the failed write. |
| `Persist.MessageReportsFailure` | AI_Agent/tools.py:105-110 | The message starts with `Error saving file: ` exactly when the write failed. |
| `Dispatch.FindTool` | AI_Agent/app.py:105-106 | The scan returns the first tool with the proposed name. It returns nothing exactly when no tool has that name. |
| `Dispatch.LookupFindsTheNamedTool` | AI_Agent/app.py:105-113 | Registered names are distinct. So a proposal selects at most one tool: the tool of that name, if there is one. |
| `Dispatch.RunToolCalls` | AI_Agent/app.py:96-113 | There is one entry and one tool run per proposal that names a registered tool, in proposal order. Each entry is labelled with the name and holds the tool's result or error. |
| `Dispatch.RepeatedProposalRunsAgain` | AI_Agent/app.py:100-113 | A proposal repeated twice runs its tool twice. Each entry holds what its own run did, so the two entries can differ. |
| `Dispatch.EntryShowsOutcome` | AI_Agent/app.py:107-112 | An entry starts with `Error with ` exactly when its tool raised. |
| `Dispatch.UnknownNameIsSkipped` | AI_Agent/app.py:100-106 | A proposal with an unregistered name leaves the batch as the other proposals give it. |
| `Dispatch.ErrorsDoNotAbortBatch` | AI_Agent/main.py:100-117 | Every recognised proposal keeps its entry, in order. The error entries are exactly those whose tool raised. |
| `Dispatch.CombinedResults` | AI_Agent/app.py:116 | The block handed to the second model call is the placeholder exactly when no proposal names a registered tool. Every entry of the batch occurs in the block. |
| `Forms.Submit` | AI_Agent/app.py:282-295 | A search is refused, with its type's message, exactly when a shown field is empty. Otherwise the query starts `Find ` and reveals its search type. When events are asked for, it holds the event type and `$<budget> AUD`; when news is asked for, it holds the topic. |
| `Forms.RefusedExactlyWhenShownFieldEmpty` | AI_Agent/app.py:282-287 | Events is refused on an empty event type, News on an empty topic, and Both on either being empty. |
| `Forms.HiddenFieldsIgnored` | AI_Agent/app.py:243-274 | What is typed into hidden fields, and a hidden slider, never change the outcome. For News, the event type is empty and the budget is 0. |
| `Forms.ReadForm` | AI_Agent/app.py:243-274 | A shown field keeps what was typed and a shown slider its number. A hidden field reads as empty and a hidden slider as 0. The search type is kept. |
| `Forms.EventsQuery` | AI_Agent/app.py:291 | The events query starts `Find `, the event type follows at once, the budget clause `$<amount> AUD` comes right after the fixed head, and the query ends in `D`. |
| `Forms.NewsQuery` | AI_Agent/app.py:293 | The news query starts `Find `, carries the topic at a fixed position and ends in `a`. |
| `Forms.BothQuery` | AI_Agent/app.py:295 | The combined query starts as the events query does, carries the topic after it and ends in `e`. |
| `Forms.FormQuery` | AI_Agent/app.py:289-295 | Every query starts `Find `. When events are asked for, the event type follows at once and `$<budget> AUD` occurs in it. When news is asked for, the topic occurs in it. |
| `Forms.EventsQueryInjective` | AI_Agent/app.py:290-291 | An events query determines its event type and budget. |
| `Forms.NewsQueryInjective` | AI_Agent/app.py:292-293 | A news query determines its topic. |
| `Forms.CliQuery` | AI_Agent/main.py:149-172 | Every console query starts `Find `. Unless the choice is "2", the event type follows at once, and a non-empty budget answer appears as `$<answer> AUD`. Unless the choice is "1", the topic occurs in it. |
| `Forms.CliBudgetClauseIffAnswered` | AI_Agent/main.py:151-158 | For choice "1", the query ends with `with budget under $<answer> AUD` exactly when the budget answer is non-empty. |
| `Forms.OtherChoicesMeanBoth` | AI_Agent/main.py:164-172 | Every choice other than "1" and "2" is the combined search. With no budget, it reads `Find {event} events and latest {topic} news in Melbourne Australia`. |
| `Forms.FrontEndsAgree` | AI_Agent/main.py:149-172 | If the console's budget answer is the form's slider number, both front ends build the same query for every search type. |
| `Forms.CliAcceptsEmptyFields` | AI_Agent/main.py:160-162 | The console builds queries from empty answers, while the web form refuses them. |

## Left out

- The two language-model calls (`init_llm`, `bind_tools`, `invoke`, all
  prompt text) are a remote service. The proposals are an input sequence,
  and the final answer is not modelled.
- Output parsing with `PydanticOutputParser` and the
  `MelbourneDiscoveryResponse` schema come from a library whose code is
  not part of this model. So there is no schema round trip, no
  `tools_used`/`sources` check, and no raw-text fallback. The two schema
  classes also differ: only the web one has `sources`.
- `DuckDuckGoSearchRun.run` (network) is a function parameter. The model
  assumes the same query text gives the same outcome. The variants of one
  call are pairwise distinct (`Search.VariantsDistinct`), so within one
  call this assumes nothing. `time.sleep` is left out. The client is
  built (`search = DuckDuckGoSearchRun()`, `tools.py:16` and `tools.py:50`)
  outside the per-variant `try`, and its construction is not modelled: if
  it raised, the tool would raise before any variant ran, and in
  `run_agent` that is the `Raised` outcome of the tool's run.
- `datetime.now().strftime(...)` (clock) is left out. Both readings are
  parameters, already formatted.
- The file write (`open`/`write`) is a `WriteOutcome` parameter.
- `tool.func(**tool_args)`: the tool a proposal selects is run through the
  `invoke` parameter. That parameter also receives the run's position in the
  batch, so repeated proposals are separate runs, and nothing forces them to
  agree. Argument binding errors, such as a missing or
  unexpected keyword, are part of the `Raised` outcome. Arguments are
  modelled as a map from names to strings; other JSON value types are not
  modelled.
- A response without a `tool_calls` attribute is treated like an empty
  proposal list, which is what the code does.
- The Streamlit rendering and the console `print`/`input` are UI and I/O.
- A console progress print that raises is not modelled: every print is
  taken to succeed. If the print at `main.py:112`, inside the `try` after
  the append, raised, that proposal would get a second entry, an error
  entry. If the print at `main.py:116`, inside the `except`, raised, the
  exception would leave `run_agent` and end the batch. A raising print at
  `main.py:98` or `:104` would also leave `run_agent`.
  The slider's range (0 to 500, step 10) is not enforced: any natural
  number is accepted.
- Text.Lower: maps only the ASCII capitals. Python's `str.lower` also maps
  other Unicode letters, and can change the length of a string.

## Behaviour worth noting

- A proposal whose name matches no tool is dropped silently. It leaves no
  entry, not even an error entry (`Dispatch.UnknownNameIsSkipped`).
- A web search result is one block of text, placed verbatim in its entry.
- `save_events` always returns a message string. A failed write is
  reported in that message, and no error is raised.
- The search tools put nothing between the `=` banner and the first entry.
  This comes from operator precedence in `tools.py:37`: the join is
  appended to the banner, with no separator.

=== FILE: budget.dfy ===
/** The budget analysis tool (`analyze_event_budget`): a keyword heuristic
    that sorts the lines of a block of search results into "free" and "paid"
    buckets and reports how many lines each bucket received together with
    the first five of them. */
module Budget {
  import opened Wrappers
  import opened Text

  /** Substrings that mark a line as free; they are tried first. */
  const FreeKeywords: seq<string> :=
    ["free", "no entry fee", "$0", "free entry", "no charge", "complimentary", "free admission"]

  /** Substrings that mark a line as paid, tried only when no free keyword matched. */
  const PaidKeywords: seq<string> :=
    ["$", "aud", "dollar", "price", "ticket", "cost", "fee"]

  /** How many lines of each bucket the report lists. */
  const ListingCap := 5

  const NoFreeNotice := "No clearly marked free events found in the search results"
  const NoPaidNotice := "No clearly marked paid events found in the search results"
  const Tip := "\n\nTIP: Always verify prices on official event pages as pricing may have changed.\n    "

  datatype Category = Free | Paid | Unmarked

  /** Python's `any(keyword in line for keyword in keywords)`. */
  function MentionsAny(line: string, keywords: seq<string>): (b: bool)
    ensures b <==> exists k :: 0 <= k < |keywords| && Contains(line, keywords[k])
    decreases |keywords|
  {
    if |keywords| == 0 then false
    else
      assert forall k :: 0 < k < |keywords| ==> keywords[k] == keywords[1..][k - 1];
      Contains(line, keywords[0]) || MentionsAny(line, keywords[1..])
  }

  /** The bucket a line goes to: the free check runs before the paid check,
      and a line matching neither list goes nowhere. */
  function Classify(line: string): (c: Category)
    ensures c == Free <==> MentionsAny(line, FreeKeywords)
    ensures c == Paid <==> !MentionsAny(line, FreeKeywords) && MentionsAny(line, PaidKeywords)
    ensures c == Unmarked <==> !MentionsAny(line, FreeKeywords) && !MentionsAny(line, PaidKeywords)
  {
    if MentionsAny(line, FreeKeywords) then Free
    else if MentionsAny(line, PaidKeywords) then Paid
    else Unmarked
  }

  /** The lines the analysis looks at: the input lower-cased, then split on
      line feeds. */
  function Lines(eventInfo: string): seq<string>
  {
    Split(Lower(eventInfo), '\n')
  }

  /** The two buckets, as lists of stripped lines. */
  datatype Buckets = Buckets(free: seq<string>, paid: seq<string>)

  /** The loop over the lines: each line, stripped, is appended to the
      bucket its category selects. The single pass fills each bucket with
      exactly the stripped lines of that bucket's category, in input order. */
  function FillBuckets(lines: seq<string>): (r: Buckets)
    ensures r.free == Select(lines, Free)
    ensures r.paid == Select(lines, Paid)
    decreases |lines|
  {
    if |lines| == 0 then Buckets([], [])
    else
      var init := lines[..|lines| - 1];
      var line := lines[|lines| - 1];
      var b := FillBuckets(init);
      FrontAndLast(lines);
      SelectAppend(init, line, Free);
      SelectAppend(init, line, Paid);
      Place(b, line)
  }

  /** One turn of the loop: the stripped line goes to the end of the bucket
      its category selects, and the other bucket is left alone. */
  function Place(b: Buckets, line: string): (r: Buckets)
    ensures r.free == b.free + (if Classify(line) == Free then [Strip(line)] else [])
    ensures r.paid == b.paid + (if Classify(line) == Paid then [Strip(line)] else [])
  {
    match Classify(line)
    case Free => b.(free := b.free + [Strip(line)])
    case Paid => b.(paid := b.paid + [Strip(line)])
    case Unmarked => b
  }

  /** Reference definition of one bucket: the stripped lines of category
      `c`, in input order. */
  function Select(lines: seq<string>, c: Category): seq<string>
    decreases |lines|
  {
    if |lines| == 0 then []
    else (if Classify(lines[0]) == c then [Strip(lines[0])] else []) + Select(lines[1..], c)
  }

  lemma SelectAppend(lines: seq<string>, line: string, c: Category)
    ensures Select(lines + [line], c)
         == Select(lines, c) + (if Classify(line) == c then [Strip(line)] else [])
  {
    SelectConcat(lines, [line], c);
    assert Select([line], c) == (if Classify(line) == c then [Strip(line)] else []) by {
      assert [line][0] == line && [line][1..] == [];
    }
  }

  lemma {:induction false} SelectConcat(a: seq<string>, b: seq<string>, c: Category)
    ensures Select(a + b, c) == Select(a, c) + Select(b, c)
    decreases |a|
  {
    if |a| == 0 {
      assert a + b == b;
    } else {
      assert (a + b)[0] == a[0];
      assert (a + b)[1..] == a[1..] + b;
      SelectConcat(a[1..], b, c);
      var x := if Classify(a[0]) == c then [Strip(a[0])] else [];
      assert Select(a + b, c) == x + (Select(a[1..], c) + Select(b, c));
      ConcatAssoc(x, Select(a[1..], c), Select(b, c));
    }
  }

  /** Every line lands in exactly one of free, paid or neither: the bucket
      sizes and the dropped lines add up to the number of lines, so the two
      reported counts never exceed it. */
  lemma {:induction false} BucketsPartitionLines(lines: seq<string>)
    ensures |Select(lines, Free)| + |Select(lines, Paid)| + |Select(lines, Unmarked)| == |lines|
    ensures |FillBuckets(lines).free| + |FillBuckets(lines).paid| <= |lines|
    decreases |lines|
  {
    if |lines| > 0 {
      BucketsPartitionLines(lines[1..]);
    }
  }

  /** A single line lands in at most one bucket: in the free bucket
      whenever it holds a free keyword, whatever paid keyword it also
      holds; in the paid bucket only when it holds a paid keyword and no
      free one; and in neither otherwise. */
  lemma FreeCheckComesFirst(line: string)
    ensures MentionsAny(line, FreeKeywords) ==> FillBuckets([line]) == Buckets([Strip(line)], [])
    ensures !MentionsAny(line, FreeKeywords) && MentionsAny(line, PaidKeywords) ==>
              FillBuckets([line]) == Buckets([], [Strip(line)])
    ensures !MentionsAny(line, FreeKeywords) && !MentionsAny(line, PaidKeywords) ==>
              FillBuckets([line]) == Buckets([], [])
  {
    assert [line][..0] == [];
  }

  /** A line holding both a free and a paid keyword, such as
      `free entry but $5 donation`, is classified as free only. */
  lemma MixedLineIsFree()
    ensures Classify("free entry but $5 donation") == Free
  {
    var line := "free entry but $5 donation";
    assert OccursAt(line, FreeKeywords[0], 0);
  }

  /** Keywords are non-empty and neither begin nor end with whitespace. */
  predicate Trimmed(keywords: seq<string>)
  {
    forall k :: 0 <= k < |keywords| ==>
      |keywords[k]| > 0 && !IsSpace(keywords[k][0]) && !IsSpace(keywords[k][|keywords[k]| - 1])
  }

  lemma {:induction false} MentionsAnyAfterStrip(line: string, keywords: seq<string>)
    requires Trimmed(keywords)
    ensures MentionsAny(Strip(line), keywords) == MentionsAny(line, keywords)
    decreases |keywords|
  {
    if |keywords| > 0 {
      StripKeepsOccurrences(line, keywords[0]);
      MentionsAnyAfterStrip(line, keywords[1..]);
    }
  }

  /** A listed line is classified as the bucket it is listed under:
      stripping never changes a line's category. */
  lemma StripKeepsCategory(line: string)
    ensures Classify(Strip(line)) == Classify(line)
  {
    KeywordsTrimmed();
    MentionsAnyAfterStrip(line, FreeKeywords);
    MentionsAnyAfterStrip(line, PaidKeywords);
  }

  lemma KeywordsTrimmed()
    ensures Trimmed(FreeKeywords) && Trimmed(PaidKeywords)
  {
    assert Trimmed(FreeKeywords);
    assert Trimmed(PaidKeywords);
  }

  /** The lines of a bucket shown in the report: its first five. */
  function Shown(bucket: seq<string>): (r: seq<string>)
    ensures |r| <= ListingCap
    ensures |r| == |bucket| || |r| == ListingCap
    ensures |r| <= |bucket|
    ensures forall k :: 0 <= k < |r| ==> r[k] == bucket[k]
  {
    if |bucket| <= ListingCap then bucket else bucket[..ListingCap]
  }

  /** The listing under a bucket's count: the shown lines one per line, or
      the bucket's notice when it is empty. */
  function Listing(bucket: seq<string>, notice: string): (r: string)
    ensures |bucket| == 0 ==> r == notice
    ensures (|bucket| > 0 && forall k :: 0 <= k < |bucket| ==> '\n' !in bucket[k])
            ==> Split(r, '\n') == Shown(bucket)
  {
    if |bucket| == 0 then notice
    else
      var shown := Shown(bucket);
      var r := Join("\n", shown);
      assert (forall k :: 0 <= k < |bucket| ==> '\n' !in bucket[k]) ==> Split(r, '\n') == shown by {
        if forall k :: 0 <= k < |bucket| ==> '\n' !in bucket[k] {
          SplitJoin(shown, '\n');
        }
      }
      r
  }

  /** One bucket's part of the report: its title line with the full count,
      then its listing. */
  function Section(title: string, bucket: seq<string>, notice: string): string
  {
    title + " EVENTS FOUND: " + NatToString(|bucket|) + "\n" + Listing(bucket, notice)
  }

  /** Reads a section back: the count after the title, and the listing that
      follows the count's line. */
  function ReadSection(s: string, title: string): Option<(nat, string)>
  {
    var head := title + " EVENTS FOUND: ";
    if !StartsWith(s, head) then None else ReadCount(s[|head|..])
  }

  /** Reads the count line that opens `rest`, and what follows it. */
  function ReadCount(rest: string): Option<(nat, string)>
  {
    var n := LeadingDigits(rest);
    if n == 0 || n == |rest| || rest[n] != '\n' then None
    else Some((DigitsValue(rest[..n]), rest[n + 1..]))
  }

  /** A section states the bucket's full size and its listing, and both can
      be read back from it. */
  lemma SectionReadsBack(title: string, bucket: seq<string>, notice: string)
    ensures ReadSection(Section(title, bucket, notice), title)
         == Some((|bucket|, Listing(bucket, notice)))
  {
    var rest := NatToString(|bucket|) + "\n" + Listing(bucket, notice);
    assert Section(title, bucket, notice) == (title + " EVENTS FOUND: ") + rest;
    ReadSectionAfterHead(title, rest);
    ReadCountOf(NatToString(|bucket|), Listing(bucket, notice));
  }

  /** Whatever follows the title and its marker is read as the count line. */
  lemma ReadSectionAfterHead(title: string, rest: string)
    ensures ReadSection((title + " EVENTS FOUND: ") + rest, title) == ReadCount(rest)
  {
    var head := title + " EVENTS FOUND: ";
    assert (head + rest)[..|head|] == head && (head + rest)[|head|..] == rest;
  }

  /** A count written in digits on its own line, followed by any text,
      reads back as that count and that text. */
  lemma ReadCountOf(digits: string, listing: string)
    requires |digits| > 0 && AllDigits(digits)
    ensures ReadCount(digits + "\n" + listing) == Some((DigitsValue(digits), listing))
  {
    var rest := digits + "\n" + listing;
    LeadingDigitsOf(digits, '\n', listing);
    assert rest[|digits|] == '\n';
    assert rest[..|digits|] == digits;
    assert rest[|digits| + 1..] == listing;
  }

  function Header(maxBudget: string): string
  {
    "\nBUDGET ANALYSIS (Maximum Budget: $" + maxBudget + " AUD)\n\n"
  }

  /** The report body, which does not mention the budget: the free section,
      then the paid section, then the closing tip. */
  function Findings(free: seq<string>, paid: seq<string>): string
  {
    Section("FREE", free, NoFreeNotice) + "\n\n" + Section("PAID", paid, NoPaidNotice) + Tip
  }

  /** `analyze_event_budget(event_info, max_budget)`. The report is the
      header naming the budget followed by the findings for the free and
      paid buckets, each bucket holding exactly the stripped lines of its
      category in input order. */
  function AnalyzeEventBudget(eventInfo: string, maxBudget: string): (report: string)
    ensures report == Header(maxBudget)
                      + Findings(Select(Lines(eventInfo), Free), Select(Lines(eventInfo), Paid))
  {
    var b := FillBuckets(Lines(eventInfo));
    Header(maxBudget) + Findings(b.free, b.paid)
  }

  /** The budget a call that leaves out `max_budget` is analysed against. */
  const DefaultMaxBudget := "100"

  /** `analyze_event_budget(event_info)`, with `max_budget` left out: the
      header states a budget of $100, followed by the same findings. */
  function AnalyzeWithDefaultBudget(eventInfo: string): (report: string)
    ensures report == Header(DefaultMaxBudget)
                      + Findings(Select(Lines(eventInfo), Free), Select(Lines(eventInfo), Paid))
  {
    AnalyzeEventBudget(eventInfo, DefaultMaxBudget)
  }

  /** The budget only appears in the header: after it, the reports for two
      budgets are identical, so no line's bucket and no count depends on it. */
  lemma BudgetOnlyInHeader(eventInfo: string, b1: string, b2: string)
    ensures var r1 := AnalyzeEventBudget(eventInfo, b1);
            var r2 := AnalyzeEventBudget(eventInfo, b2);
            StartsWith(r1, Header(b1)) && StartsWith(r2, Header(b2))
            && r1[|Header(b1)|..] == r2[|Header(b2)|..]
  {
    var f := Findings(Select(Lines(eventInfo), Free), Select(Lines(eventInfo), Paid));
    var r1 := AnalyzeEventBudget(eventInfo, b1);
    var r2 := AnalyzeEventBudget(eventInfo, b2);
    assert r1[..|Header(b1)|] == Header(b1) && r1[|Header(b1)|..] == f;
    assert r2[..|Header(b2)|] == Header(b2) && r2[|Header(b2)|..] == f;
  }

  /** The lines a bucket holds contain no line feed, since they come from
      splitting on it. */
  lemma {:induction false} SelectedLinesAreSingleLines(lines: seq<string>, c: Category)
    requires forall k :: 0 <= k < |lines| ==> '\n' !in lines[k]
    ensures forall k :: 0 <= k < |Select(lines, c)| ==> '\n' !in Select(lines, c)[k]
    decreases |lines|
  {
    if |lines| > 0 {
      SelectedLinesAreSingleLines(lines[1..], c);
      StripKeepsAbsent(lines[0], '\n');
    }
  }

  /** What each bucket's section of the report says: the full number of
      lines in the bucket, and, when there are any, the first five of them
      one per line, each lower-cased, stripped and itself classified as that
      bucket; an empty bucket shows its notice instead. */
  lemma SectionListsFirstFive(eventInfo: string, c: Category, title: string, notice: string)
    requires (c, title, notice) == (Free, "FREE", NoFreeNotice) || (c, title, notice) == (Paid, "PAID", NoPaidNotice)
    ensures var bucket := Select(Lines(eventInfo), c);
            && ReadSection(Section(title, bucket, notice), title) == Some((|bucket|, Listing(bucket, notice)))
            && (|bucket| == 0 ==> Listing(bucket, notice) == notice)
            && (|bucket| > 0 ==> Split(Listing(bucket, notice), '\n') == Shown(bucket))
            && (forall k :: 0 <= k < |bucket| ==> Classify(bucket[k]) == c)
  {
    var lines := Lines(eventInfo);
    var bucket := Select(lines, c);
    SectionReadsBack(title, bucket, notice);
    SelectedLinesAreSingleLines(lines, c);
    SelectedLinesClassified(lines, c);
  }

  /** Every line in a bucket is classified as that bucket. */
  lemma {:induction false} SelectedLinesClassified(lines: seq<string>, c: Category)
    ensures forall k :: 0 <= k < |Select(lines, c)| ==> Classify(Select(lines, c)[k]) == c
    decreases |lines|
  {
    if |lines| > 0 {
      var x := if Classify(lines[0]) == c then [Strip(lines[0])] else [];
      var rest := Select(lines[1..], c);
      assert forall k :: 0 <= k < |x| ==> Classify(x[k]) == c by {
        StripKeepsCategory(lines[0]);
      }
      SelectedLinesClassified(lines[1..], c);
      ClassifiedConcat(x, rest, c);
      assert Select(lines, c) == x + rest;
    }
  }

  lemma ClassifiedConcat(x: seq<string>, rest: seq<string>, c: Category)
    requires forall k :: 0 <= k < |x| ==> Classify(x[k]) == c
    requires forall k :: 0 <= k < |rest| ==> Classify(rest[k]) == c
    ensures forall k :: 0 <= k < |x + rest| ==> Classify((x + rest)[k]) == c
  {
    forall k | 0 <= k < |x + rest|
      ensures Classify((x + rest)[k]) == c
    {
      IndexConcat(x, rest, k);
    }
  }
}

=== FILE: dispatch.dfy ===
/** The tool-dispatch step of `run_agent`, which the web front end and the
    console front end implement the same way apart from the console's
    progress prints (main.py:98, :104, :112, :116), whose failure is not
    modelled. The language model's first
    answer is a list of proposed tool calls; each proposal names a tool and
    carries keyword arguments. Proposals are handled in order: the name is
    looked up in the fixed tool list, an unknown name is skipped, and a
    known tool is run once, its return value or the error it raised becoming
    one labelled entry. The entries are then combined into the text block
    the model's second prompt receives.

    What a tool does when run is a parameter (`invoke`), given the run's
    position in the batch as well as the tool and its arguments, so the same
    proposal made twice may have two different outcomes (a later search
    returning other text, a later export naming another file). This module
    states what the loop does with any tool behaviour; the tools themselves
    are modelled in the Search, Persist and Budget modules. */
module Dispatch {
  import opened Wrappers
  import opened Text

  /** The four registered tools. */
  datatype Tool = SearchLocalEvents | SearchMelbourneNews | SaveEvents | AnalyzeEventBudget

  /** The name a tool is registered and proposed under. */
  function Name(t: Tool): string
  {
    match t
    case SearchLocalEvents => "search_local_events"
    case SearchMelbourneNews => "search_melbourne_news"
    case SaveEvents => "save_events"
    case AnalyzeEventBudget => "analyze_event_budget"
  }

  /** The tool list, in the order the lookup scans it. */
  const Registry: seq<Tool> := [SearchLocalEvents, SearchMelbourneNews, SaveEvents, AnalyzeEventBudget]

  /** One proposal from the model: a tool name (empty when the proposal
      gives none) and its keyword arguments. */
  datatype ToolCall = ToolCall(name: string, args: map<string, string>)

  /** What running a tool did: the text it returned or the message of the
      error it raised. */
  datatype ToolOutcome = Returned(text: string) | Raised(message: string)

  /** The scan of the tool list that stops at the first tool with the
      proposed name: its position, or nothing when no tool has that name. */
  function FindTool(tools: seq<Tool>, name: string): (r: Option<nat>)
    ensures r.None? <==> forall i :: 0 <= i < |tools| ==> Name(tools[i]) != name
    ensures r.Some? ==> r.value < |tools| && Name(tools[r.value]) == name
    ensures r.Some? ==> forall i :: 0 <= i < r.value ==> Name(tools[i]) != name
    decreases |tools|
  {
    if |tools| == 0 then None
    else if Name(tools[0]) == name then Some(0)
    else
      match FindTool(tools[1..], name)
      case None => None
      case Some(i) => Some(i + 1)
  }

  /** The registered tool a proposal's name selects, if any. */
  function Lookup(name: string): (r: Option<Tool>)
    ensures r.Some? ==> Name(r.value) == name
  {
    match FindTool(Registry, name)
    case None => None
    case Some(i) => Some(Registry[i])
  }

  /** Registered names are distinct, so the first tool with a name is the
      only one: a proposal can select at most one tool, and it selects the
      tool of that name whenever there is one. */
  lemma LookupFindsTheNamedTool(name: string)
    ensures forall i, j :: 0 <= i < j < |Registry| ==> Name(Registry[i]) != Name(Registry[j])
    ensures Lookup(name).Some? <==> exists t: Tool :: Name(t) == name
    ensures forall t: Tool :: Name(t) == name ==> Lookup(name) == Some(t)
  {
    forall t: Tool | Name(t) == name
      ensures Lookup(name) == Some(t)
    {
      assert Registry[ToolIndex(t)] == t;
    }
  }

  /** Where a tool sits in the registry. */
  function ToolIndex(t: Tool): nat
  {
    match t
    case SearchLocalEvents => 0
    case SearchMelbourneNews => 1
    case SaveEvents => 2
    case AnalyzeEventBudget => 3
  }

  /** The entry a run tool contributes. */
  function Entry(name: string, outcome: ToolOutcome): string
  {
    match outcome
    case Returned(text) => "Tool: " + name + "\nResult: " + text
    case Raised(message) => "Error with " + name + ": " + message
  }

  const ErrorPrefix := "Error with "

  /** Tells an error entry from a result entry by its opening words. */
  predicate IsErrorEntry(entry: string)
  {
    StartsWith(entry, ErrorPrefix)
  }

  /** An entry is error-shaped exactly when its tool raised. */
  lemma EntryShowsOutcome(name: string, outcome: ToolOutcome)
    ensures IsErrorEntry(Entry(name, outcome)) <==> outcome.Raised?
  {
    var e := Entry(name, outcome);
    if outcome.Raised? {
      assert e == ErrorPrefix + (name + ": " + outcome.message);
      assert e[..|ErrorPrefix|] == ErrorPrefix;
    } else {
      assert e[0] == 'T' != ErrorPrefix[0];
    }
  }

  /** Reference definition: the proposals whose name selects a registered
      tool, in proposal order. */
  function Recognized(calls: seq<ToolCall>): seq<ToolCall>
    decreases |calls|
  {
    if |calls| == 0 then []
    else (if Lookup(calls[0].name).Some? then [calls[0]] else []) + Recognized(calls[1..])
  }

  lemma RecognizedAppend(calls: seq<ToolCall>, c: ToolCall)
    ensures Recognized(calls + [c]) == Recognized(calls) + (if Lookup(c.name).Some? then [c] else [])
  {
    RecognizedConcat(calls, [c]);
    assert [c][1..] == [];
  }

  lemma {:induction false} RecognizedConcat(a: seq<ToolCall>, b: seq<ToolCall>)
    ensures Recognized(a + b) == Recognized(a) + Recognized(b)
    decreases |a|
  {
    if |a| == 0 {
      assert a + b == b;
    } else {
      assert (a + b)[0] == a[0];
      assert (a + b)[1..] == a[1..] + b;
      RecognizedConcat(a[1..], b);
      var x := if Lookup(a[0].name).Some? then [a[0]] else [];
      assert Recognized(a + b) == x + (Recognized(a[1..]) + Recognized(b));
      ConcatAssoc(x, Recognized(a[1..]), Recognized(b));
    }
  }

  /** The outcome of the tool run at a given position in the batch (0 for
      the first tool the loop runs), for that tool and those arguments. */
  type Runner = (nat, Tool, map<string, string>) -> ToolOutcome

  /** What the loop produced: the entries, and the tools it ran. */
  datatype Batch = Batch(entries: seq<string>, ran: seq<Tool>)

  /** The batch records one run per proposal of `r`, in order: the k-th
      run is of a tool with the k-th proposal's name, and its entry holds
      what that run did. */
  predicate Records(b: Batch, r: seq<ToolCall>, invoke: Runner)
  {
    && |b.entries| == |r| && |b.ran| == |r|
    && forall k :: 0 <= k < |r| ==>
         && Name(b.ran[k]) == r[k].name
         && b.entries[k] == Entry(r[k].name, invoke(k, b.ran[k], r[k].args))
  }

  /** Running one more recognised proposal extends the record by it. */
  lemma RecordsExtend(b: Batch, r: seq<ToolCall>, c: ToolCall, t: Tool, invoke: Runner)
    requires Records(b, r, invoke) && Name(t) == c.name
    ensures Records(Batch(b.entries + [Entry(c.name, invoke(|r|, t, c.args))], b.ran + [t]), r + [c], invoke)
  {
    var b' := Batch(b.entries + [Entry(c.name, invoke(|r|, t, c.args))], b.ran + [t]);
    var r' := r + [c];
    forall k | 0 <= k < |r'|
      ensures Name(b'.ran[k]) == r'[k].name
      ensures b'.entries[k] == Entry(r'[k].name, invoke(k, b'.ran[k], r'[k].args))
    {
      if k < |r| {
        assert r'[k] == r[k] && b'.ran[k] == b.ran[k] && b'.entries[k] == b.entries[k];
      }
    }
  }

  /** The loop over the proposals. There is one entry, and one tool run, per
      proposal that names a registered tool, in proposal order: that tool,
      labelled with the proposed name, with the value that run returned or
      the error it raised. Proposals with unknown names contribute nothing, and
      an error never ends the loop. */
  function RunToolCalls(calls: seq<ToolCall>, invoke: Runner): (b: Batch)
    ensures var r := Recognized(calls);
            && |b.entries| == |r| && |b.ran| == |r|
            && forall k :: 0 <= k < |r| ==>
                 && Name(b.ran[k]) == r[k].name
                 && b.entries[k] == Entry(r[k].name, invoke(k, b.ran[k], r[k].args))
    decreases |calls|
  {
    if |calls| == 0 then Batch([], [])
    else
      var init := calls[..|calls| - 1];
      var c := calls[|calls| - 1];
      var b := RunToolCalls(init, invoke);
      RecognizedAppend(init, c);
      FrontAndLast(calls);
      assert Records(b, Recognized(init), invoke);
      if Lookup(c.name).None? then b
      else
        var t := Lookup(c.name).value;
        RecordsExtend(b, Recognized(init), c, t, invoke);
        Batch(b.entries + [Entry(c.name, invoke(|b.entries|, t, c.args))], b.ran + [t])
  }

  /** Each proposal runs its tool afresh, even when an earlier proposal was
      the same: two equal recognised proposals are two runs, and each entry
      holds what its own run did. */
  lemma RepeatedProposalRunsAgain(c: ToolCall, invoke: Runner)
    requires Lookup(c.name).Some?
    ensures var b := RunToolCalls([c, c], invoke);
            var t := Lookup(c.name).value;
            && b.ran == [t, t]
            && b.entries == [Entry(c.name, invoke(0, t, c.args)), Entry(c.name, invoke(1, t, c.args))]
  {
    var t := Lookup(c.name).value;
    assert Recognized([c]) == [c] by { assert [c][1..] == []; }
    assert Recognized([c, c]) == [c, c] by { assert [c, c][1..] == [c]; }
    var b := RunToolCalls([c, c], invoke);
    NameInjective(b.ran[0], t);
    NameInjective(b.ran[1], t);
  }

  const NoToolsPlaceholder := "No tools were executed."

  /** The combined block: the entries separated by blank lines, or the
      placeholder when there are none. */
  function Combine(entries: seq<string>): string
  {
    if |entries| == 0 then NoToolsPlaceholder else Join("\n\n", entries)
  }

  /** The block `run_agent` hands to the second prompt: the placeholder
      exactly when no proposal names a registered tool (an entry never reads
      like the placeholder), and otherwise a text in which every entry of
      the batch occurs. */
  function CombinedResults(calls: seq<ToolCall>, invoke: Runner): (block: string)
    ensures block == NoToolsPlaceholder <==> forall k :: 0 <= k < |calls| ==> Lookup(calls[k].name).None?
    ensures forall k :: 0 <= k < |RunToolCalls(calls, invoke).entries| ==>
              Contains(block, RunToolCalls(calls, invoke).entries[k])
  {
    var entries := RunToolCalls(calls, invoke).entries;
    NothingRecognized(calls);
    if |entries| == 0 then
      Combine(entries)
    else
      JoinStartsWithFirst("\n\n", entries);
      var r := Recognized(calls);
      assert entries[0][0] == 'T' || entries[0][0] == 'E';
      assert Join("\n\n", entries)[0] == entries[0][0];
      Combine(entries)
  }

  /** No proposal is recognised exactly when none names a registered tool. */
  lemma {:induction false} NothingRecognized(calls: seq<ToolCall>)
    ensures |Recognized(calls)| == 0 <==> forall k :: 0 <= k < |calls| ==> Lookup(calls[k].name).None?
    decreases |calls|
  {
    if |calls| > 0 {
      NothingRecognized(calls[1..]);
      assert forall k :: 1 <= k < |calls| ==> calls[k] == calls[1..][k - 1];
    }
  }

  /** A proposal with an unknown name changes nothing: the batch is the one
      the other proposals give on their own. */
  lemma UnknownNameIsSkipped(before: seq<ToolCall>, c: ToolCall, after: seq<ToolCall>,
                             invoke: Runner)
    requires Lookup(c.name).None?
    ensures RunToolCalls(before + [c] + after, invoke) == RunToolCalls(before + after, invoke)
  {
    RecognizedSkipsUnknown(before, c, after);
    var r := Recognized(before + after);
    var b1 := RunToolCalls(before + [c] + after, invoke);
    var b2 := RunToolCalls(before + after, invoke);
    assert Records(b1, r, invoke) && Records(b2, r, invoke);
    RecordsDetermine(b1, b2, r, invoke);
  }

  /** A record of the runs is determined by the proposals it records. */
  lemma RecordsDetermine(b1: Batch, b2: Batch, r: seq<ToolCall>, invoke: Runner)
    requires Records(b1, r, invoke) && Records(b2, r, invoke)
    ensures b1 == b2
  {
    forall k | 0 <= k < |r|
      ensures b1.ran[k] == b2.ran[k] && b1.entries[k] == b2.entries[k]
    {
      NameInjective(b1.ran[k], b2.ran[k]);
    }
    assert b1.ran == b2.ran && b1.entries == b2.entries;
  }

  lemma RecognizedSkipsUnknown(before: seq<ToolCall>, c: ToolCall, after: seq<ToolCall>)
    requires Lookup(c.name).None?
    ensures Recognized(before + [c] + after) == Recognized(before + after)
  {
    RecognizedConcat(before + [c], after);
    RecognizedAppend(before, c);
    RecognizedConcat(before, after);
  }

  /** Different tools have different names. */
  lemma NameInjective(t1: Tool, t2: Tool)
    requires Name(t1) == Name(t2)
    ensures t1 == t2
  {
    assert |Name(t1)| == |Name(t2)|;
  }

  /** An error in one tool does not abort the batch: every recognised
      proposal still has its entry, in order, and the error-shaped entries
      are exactly those whose tool raised. With three recognised proposals
      of which the second raises, the block holds three entries and only the
      second is an error. */
  lemma ErrorsDoNotAbortBatch(calls: seq<ToolCall>, invoke: Runner)
    ensures var b := RunToolCalls(calls, invoke);
            var r := Recognized(calls);
            && |b.entries| == |r|
            && forall k :: 0 <= k < |r| ==> (IsErrorEntry(b.entries[k]) <==> invoke(k, b.ran[k], r[k].args).Raised?)
  {
    var b := RunToolCalls(calls, invoke);
    var r := Recognized(calls);
    forall k | 0 <= k < |r|
      ensures IsErrorEntry(b.entries[k]) <==> invoke(k, b.ran[k], r[k].args).Raised?
    {
      EntryShowsOutcome(r[k].name, invoke(k, b.ran[k], r[k].args));
    }
  }
}

=== FILE: forms.dfy ===
/** How the two front ends turn what the user typed into the query text
    given to `run_agent`. The web front end offers three search types,
    shows only the fields a type uses, refuses a search whose shown fields
    are empty and renders the budget slider's value into the query. The
    console front end asks for a menu choice, treats every choice other than
    "1" and "2" as "both", validates nothing, and leaves the budget clause
    out when the budget answer is empty. */
module Forms {
  import opened Wrappers
  import opened Text

  datatype SearchType = Events | News | Both

  /** Whether a search type shows the event-type field and the budget
      slider, and whether it shows the news-topic field. */
  predicate AsksEvent(t: SearchType) { t != News }
  predicate AsksTopic(t: SearchType) { t != Events }

  /** The values the form submits. A field the search type does not show
      is empty, and the budget is 0 when the slider is not shown. */
  datatype Form = Form(searchType: SearchType, eventType: string, newsTopic: string, budget: nat)

  /** The form for a search type, given what is typed into the fields and
      where the slider stands; values of fields that are not shown are
      dropped. The slider itself only offers 0 to 500 in steps of 10. */
  function ReadForm(searchType: SearchType, typedEvent: string, typedTopic: string, slider: nat): (f: Form)
    ensures f.searchType == searchType
    ensures AsksEvent(searchType) ==> f.eventType == typedEvent && f.budget == slider
    ensures !AsksEvent(searchType) ==> f.eventType == "" && f.budget == 0
    ensures AsksTopic(searchType) ==> f.newsTopic == typedTopic
    ensures !AsksTopic(searchType) ==> f.newsTopic == ""
  {
    Form(searchType,
         if AsksEvent(searchType) then typedEvent else "",
         if AsksTopic(searchType) then typedTopic else "",
         if AsksEvent(searchType) then slider else 0)
  }

  const MissingEvent := "Please enter an event type!"
  const MissingTopic := "Please enter a news topic!"
  const MissingBoth := "Please enter both event type and news topic!"

  /** Every field the search type shows has been filled in. */
  predicate Complete(f: Form)
  {
    && (AsksEvent(f.searchType) ==> f.eventType != "")
    && (AsksTopic(f.searchType) ==> f.newsTopic != "")
  }

  /** The message a refused search shows for its type. */
  function RefusalFor(t: SearchType): string
  {
    match t
    case Events => MissingEvent
    case News => MissingTopic
    case Both => MissingBoth
  }

  /** The start of an events query, up to its budget clause. */
  function EventsHead(eventType: string): string
  {
    "Find " + eventType + " events in Melbourne Australia with budget under "
  }

  /** The budget clause, `$<amount> AUD`. */
  function BudgetClause(amount: string): string
  {
    "$" + amount + " AUD"
  }

  /** The end of a combined query, after its budget clause. */
  function BothTail(newsTopic: string): string
  {
    " and also provide latest " + newsTopic + " news in Melbourne"
  }

  /** The events query that states a budget: the event type right after
      `Find `, and the budget clause right after the head. */
  function EventsQuery(eventType: string, amount: string): (q: string)
    ensures StartsWith(q, "Find ") && OccursAt(q, eventType, 5)
    ensures OccursAt(q, BudgetClause(amount), |EventsHead(eventType)|)
    ensures q[|q| - 1] == 'D'
  {
    var head := EventsHead(eventType);
    var q := head + BudgetClause(amount);
    assert q[..5] == "Find " && q[5..5 + |eventType|] == eventType;
    assert q[|head|..] == BudgetClause(amount);
    q
  }

  /** The combined query that states a budget: the events query, then the
      request for news on the topic. */
  function BothQuery(eventType: string, amount: string, newsTopic: string): (q: string)
    ensures StartsWith(q, "Find ") && OccursAt(q, eventType, 5)
    ensures OccursAt(q, BudgetClause(amount), |EventsHead(eventType)|)
    ensures OccursAt(q, newsTopic, |EventsQuery(eventType, amount)| + 25)
    ensures q[|q| - 1] == 'e'
  {
    var e := EventsQuery(eventType, amount);
    var q := e + BothTail(newsTopic);
    assert q[..|e|] == e;
    assert q[|e| + 25..|e| + 25 + |newsTopic|] == newsTopic;
    q
  }

  /** The news query: the topic follows `Find latest news about `. */
  function NewsQuery(newsTopic: string): (q: string)
    ensures StartsWith(q, "Find ") && OccursAt(q, newsTopic, 23)
    ensures q[|q| - 1] == 'a'
  {
    var q := "Find latest news about " + newsTopic + " in Melbourne Australia";
    assert q[..5] == "Find " && q[23..23 + |newsTopic|] == newsTopic;
    q
  }

  /** The query for each search type. It starts with `Find `; the event
      type follows at once when events are asked for, the budget clause is
      stated for events, and the topic is carried whenever news is asked
      for. */
  function FormQuery(f: Form): (q: string)
    ensures StartsWith(q, "Find ")
    ensures AsksEvent(f.searchType) ==> OccursAt(q, f.eventType, 5)
    ensures AsksEvent(f.searchType) ==> Contains(q, BudgetClause(NatToString(f.budget)))
    ensures AsksTopic(f.searchType) ==> Contains(q, f.newsTopic)
  {
    match f.searchType
    case Events => EventsQuery(f.eventType, NatToString(f.budget))
    case News => NewsQuery(f.newsTopic)
    case Both => BothQuery(f.eventType, NatToString(f.budget), f.newsTopic)
  }

  /** Reads the search type back from a query: the three templates end in
      different letters. */
  function SearchTypeOf(query: string): Option<SearchType>
  {
    if |query| == 0 then None
    else if query[|query| - 1] == 'D' then Some(Events)
    else if query[|query| - 1] == 'a' then Some(News)
    else if query[|query| - 1] == 'e' then Some(Both)
    else None
  }

  /** Pressing Search. The search is refused, with its type's message,
      exactly when a shown field is empty; otherwise the query follows the
      template of its search type, which can be read back from it, and for
      events it states the budget as `$<budget> AUD`. */
  function Submit(f: Form): (r: Result<string, string>)
    ensures r.Ok? <==> Complete(f)
    ensures r.Err? ==> r.error == RefusalFor(f.searchType)
    ensures r.Ok? ==> StartsWith(r.value, "Find ") && SearchTypeOf(r.value) == Some(f.searchType)
    ensures r.Ok? && AsksEvent(f.searchType) ==> Contains(r.value, BudgetClause(NatToString(f.budget)))
    ensures r.Ok? && AsksEvent(f.searchType) ==> Contains(r.value, f.eventType)
    ensures r.Ok? && AsksTopic(f.searchType) ==> Contains(r.value, f.newsTopic)
  {
    if f.searchType == Events && f.eventType == "" then Err(MissingEvent)
    else if f.searchType == News && f.newsTopic == "" then Err(MissingTopic)
    else if f.searchType == Both && (f.eventType == "" || f.newsTopic == "") then Err(MissingBoth)
    else
      var q := FormQuery(f);
      assert SearchTypeOf(q) == Some(f.searchType);
      Ok(q)
  }

  /** What the user typed into a field the search type does not show, and
      the slider when it is hidden, never affect the outcome: a news search
      reads an empty event type and a budget of 0, an events search an
      empty topic. */
  lemma HiddenFieldsIgnored(t: SearchType, e1: string, e2: string, t1: string, t2: string, s1: nat, s2: nat)
    ensures t == News ==> ReadForm(t, e1, t1, s1).eventType == "" && ReadForm(t, e1, t1, s1).budget == 0
    ensures t == Events ==> ReadForm(t, e1, t1, s1).newsTopic == ""
    ensures !AsksEvent(t) ==> Submit(ReadForm(t, e1, t1, s1)) == Submit(ReadForm(t, e2, t1, s2))
    ensures !AsksTopic(t) ==> Submit(ReadForm(t, e1, t1, s1)) == Submit(ReadForm(t, e1, t2, s1))
  {
  }

  /** A refused search names the fields the user must fill in: exactly the
      shown ones left empty. */
  lemma RefusedExactlyWhenShownFieldEmpty(t: SearchType, typedEvent: string, typedTopic: string, slider: nat)
    ensures Submit(ReadForm(t, typedEvent, typedTopic, slider)).Err?
            <==> (AsksEvent(t) && typedEvent == "") || (AsksTopic(t) && typedTopic == "")
  {
  }

  /** Text ending in `$` followed by digits splits uniquely into the text
      and the digits. */
  lemma DigitsAfterDollar(a1: string, d1: string, a2: string, d2: string)
    requires |a1| > 0 && a1[|a1| - 1] == '$' && |a2| > 0 && a2[|a2| - 1] == '$'
    requires AllDigits(d1) && AllDigits(d2)
    requires a1 + d1 == a2 + d2
    ensures a1 == a2 && d1 == d2
  {
    DigitsNotShorter(a1, d1, a2, d2);
    DigitsNotShorter(a2, d2, a1, d1);
    var s := a1 + d1;
    assert a1 == s[..|a1|] && a2 == (a2 + d2)[..|a2|];
    assert d1 == s[|a1|..] && d2 == (a2 + d2)[|a2|..];
  }

  lemma DigitsNotShorter(a1: string, d1: string, a2: string, d2: string)
    requires |a1| > 0 && a1[|a1| - 1] == '$'
    requires AllDigits(d2)
    requires a1 + d1 == a2 + d2
    ensures |d2| <= |d1|
  {
    var i := |a1| - 1;
    assert (a1 + d1)[i] == '$';
    if i >= |a2| {
      assert false;
    }
  }

  /** An events query determines its event type and budget: no two
      different event searches send the same query. */
  lemma EventsQueryInjective(e1: string, b1: nat, e2: string, b2: nat)
    requires FormQuery(Form(Events, e1, "", b1)) == FormQuery(Form(Events, e2, "", b2))
    ensures e1 == e2 && b1 == b2
  {
    var d1 := NatToString(b1);
    var d2 := NatToString(b2);
    assert EventsHead(e1) + BudgetClause(d1) == EventsHead(e2) + BudgetClause(d2) by {
      assert FormQuery(Form(Events, e1, "", b1)) == EventsQuery(e1, d1) == EventsHead(e1) + BudgetClause(d1);
      assert FormQuery(Form(Events, e2, "", b2)) == EventsQuery(e2, d2) == EventsHead(e2) + BudgetClause(d2);
    }
    EventsQueryDetermines(e1, d1, e2, d2);
    NatToStringInjective(b1, b2);
  }

  /** The event type and a digit-only amount can be read back from the
      events template. */
  lemma EventsQueryDetermines(e1: string, d1: string, e2: string, d2: string)
    requires AllDigits(d1) && AllDigits(d2)
    requires EventsHead(e1) + BudgetClause(d1) == EventsHead(e2) + BudgetClause(d2)
    ensures e1 == e2 && d1 == d2
  {
    var a1 := EventsHead(e1) + "$";
    var a2 := EventsHead(e2) + "$";
    assert EventsHead(e1) + BudgetClause(d1) == (a1 + d1) + " AUD";
    assert EventsHead(e2) + BudgetClause(d2) == (a2 + d2) + " AUD";
    SameBefore(a1 + d1, a2 + d2, " AUD");
    DigitsAfterDollar(a1, d1, a2, d2);
    var mid := " events in Melbourne Australia with budget under $";
    assert a1 == "Find " + e1 + mid && a2 == "Find " + e2 + mid;
    SameBetween("Find ", e1, e2, mid);
  }

  /** A news query determines its topic. */
  lemma NewsQueryInjective(t1: string, t2: string)
    requires FormQuery(Form(News, "", t1, 0)) == FormQuery(Form(News, "", t2, 0))
    ensures t1 == t2
  {
    var q := FormQuery(Form(News, "", t1, 0));
    assert t1 == q[23..|q| - 23];
    assert t2 == FormQuery(Form(News, "", t2, 0))[23..|q| - 23];
  }

  /** The events query the console sends when no budget is given. */
  function EventsAnyBudget(eventType: string): (q: string)
    ensures StartsWith(q, "Find ") && OccursAt(q, eventType, 5)
  {
    var q := "Find " + eventType + " events in Melbourne Australia";
    assert q[..5] == "Find " && q[5..5 + |eventType|] == eventType;
    q
  }

  /** The combined query the console sends when no budget is given. */
  function BothAnyBudget(eventType: string, newsTopic: string): (q: string)
    ensures StartsWith(q, "Find ") && OccursAt(q, eventType, 5)
    ensures OccursAt(q, newsTopic, |eventType| + 24)
  {
    var a := "Find " + eventType + " events and latest ";
    var q := a + newsTopic + " news in Melbourne Australia";
    assert q[..5] == "Find " && q[5..5 + |eventType|] == eventType;
    assert q[|a|..|a| + |newsTopic|] == newsTopic;
    q
  }

  /** The console front end (`main`): choice "1" asks for events, "2" for
      news, anything else for both; an empty budget answer drops the
      budget clause. Nothing is validated. The query starts with `Find `,
      the event type follows at once unless only news is asked for, the
      topic is carried unless only events are, and a given budget answer is
      stated as `$<answer> AUD`. */
  function CliQuery(choice: string, eventType: string, newsTopic: string, budgetInput: string): (q: string)
    ensures StartsWith(q, "Find ")
    ensures choice != "2" ==> OccursAt(q, eventType, 5)
    ensures choice != "1" ==> Contains(q, newsTopic)
    ensures choice != "2" && budgetInput != "" ==> Contains(q, BudgetClause(budgetInput))
  {
    if choice == "1" then
      if budgetInput != "" then EventsQuery(eventType, budgetInput) else EventsAnyBudget(eventType)
    else if choice == "2" then
      NewsQuery(newsTopic)
    else if budgetInput != "" then
      BothQuery(eventType, budgetInput, newsTopic)
    else
      BothAnyBudget(eventType, newsTopic)
  }

  /** For events, the query carries `with budget under $<answer> AUD`
      exactly when the budget answer is non-empty. */
  lemma CliBudgetClauseIffAnswered(eventType: string, budgetInput: string)
    ensures EndsWith(CliQuery("1", eventType, "", budgetInput), " with budget under " + BudgetClause(budgetInput))
            <==> budgetInput != ""
  {
    if budgetInput != "" {
      CliAnsweredEndsWithClause(eventType, budgetInput);
    } else {
      CliUnansweredLacksClause(eventType);
    }
  }

  lemma CliAnsweredEndsWithClause(eventType: string, budgetInput: string)
    requires budgetInput != ""
    ensures EndsWith(CliQuery("1", eventType, "", budgetInput), " with budget under " + BudgetClause(budgetInput))
  {
    var q := EventsQuery(eventType, budgetInput);
    var clause := " with budget under " + BudgetClause(budgetInput);
    var plain := "Find " + eventType + " events in Melbourne Australia";
    assert q == plain + clause by {
      assert q == EventsHead(eventType) + BudgetClause(budgetInput);
      assert EventsHead(eventType) == plain + " with budget under ";
    }
    assert q[|q| - |clause|..] == clause;
  }

  lemma CliUnansweredLacksClause(eventType: string)
    ensures !EndsWith(CliQuery("1", eventType, "", ""), " with budget under " + BudgetClause(""))
  {
    var q := EventsAnyBudget(eventType);
    var clause := " with budget under " + BudgetClause("");
    assert q[|q| - 1] == 'a';
    assert clause[|clause| - 1] == 'D';
  }

  /** Every choice other than "1" and "2" is the "both" search. */
  lemma OtherChoicesMeanBoth(choice: string, eventType: string, newsTopic: string, budgetInput: string)
    requires choice != "1" && choice != "2"
    ensures CliQuery(choice, eventType, newsTopic, budgetInput) == CliQuery("3", eventType, newsTopic, budgetInput)
    ensures budgetInput == "" ==>
              CliQuery(choice, eventType, newsTopic, budgetInput)
              == "Find " + eventType + " events and latest " + newsTopic + " news in Melbourne Australia"
  {
  }

  /** When the console user answers the budget with the slider's number,
      both front ends send the same query for every search type, and the
      console accepts the empty fields the web form refuses. */
  lemma FrontEndsAgree(t: SearchType, eventType: string, newsTopic: string, budget: nat)
    ensures var choice := match t case Events => "1" case News => "2" case Both => "3";
            var f := ReadForm(t, eventType, newsTopic, budget);
            && CliQuery(choice, eventType, newsTopic, NatToString(budget)) == FormQuery(f)
            && (Complete(f) ==> Submit(f) == Ok(CliQuery(choice, eventType, newsTopic, NatToString(budget))))
  {
  }

  /** The console builds a query from empty answers, where the web form
      refuses the same search. */
  lemma CliAcceptsEmptyFields()
    ensures CliQuery("2", "", "", "") == "Find latest news about " + " in Melbourne Australia"
    ensures CliQuery("1", "", "", "") == "Find " + " events in Melbourne Australia"
    ensures Submit(Form(News, "", "", 0)) == Err(MissingTopic)
    ensures Submit(Form(Events, "", "", 0)) == Err(MissingEvent)
  {
    CliEmptyNews();
    CliEmptyEvents();
    FormRefusesEmptyFields();
  }

  lemma CliEmptyNews()
    ensures CliQuery("2", "", "", "") == "Find latest news about " + " in Melbourne Australia"
  {
    assert CliQuery("2", "", "", "") == NewsQuery("");
    NewsQueryEmpty();
  }

  lemma NewsQueryEmpty()
    ensures NewsQuery("") == "Find latest news about " + " in Melbourne Australia"
  {
    EmptyBetween("Find latest news about ", " in Melbourne Australia");
  }

  lemma CliEmptyEvents()
    ensures CliQuery("1", "", "", "") == "Find " + " events in Melbourne Australia"
  {
    assert CliQuery("1", "", "", "") == EventsAnyBudget("");
    EventsAnyBudgetEmpty();
  }

  lemma EventsAnyBudgetEmpty()
    ensures EventsAnyBudget("") == "Find " + " events in Melbourne Australia"
  {
    EmptyBetween("Find ", " events in Melbourne Australia");
  }

  /** The web form refuses an events search without an event type and a
      news search without a topic. */
  lemma FormRefusesEmptyFields()
    ensures Submit(Form(News, "", "", 0)) == Err(MissingTopic)
    ensures Submit(Form(Events, "", "", 0)) == Err(MissingEvent)
  {
  }
}

=== FILE: persist.dfy ===
/** The export tool (`save_events`): wraps the text it is given in a fixed
    banner-and-footer document and writes it to a file named after the
    current time. The clock is read twice by the program, once for the file
    name and once for the "Generated:" line, so both readings are
    parameters, already formatted; the write is a parameter too, giving
    whether it succeeded or the failure it raised. */
module Persist {
  import opened Wrappers
  import opened Text

  /** What the attempt to write the document did. */
  datatype WriteOutcome = Written | WriteFailed(reason: string)

  const FilePrefix := "melbourne_events_"
  const FileSuffix := ".txt"

  /** The file name for a timestamp formatted as `%Y-%m-%d_%H-%M-%S`. */
  function FileName(stamp: string): string
  {
    FilePrefix + stamp + FileSuffix
  }

  /** Reads the timestamp back out of a file name of that shape. */
  function StampOf(fileName: string): Option<string>
  {
    if |FilePrefix| + |FileSuffix| <= |fileName| && StartsWith(fileName, FilePrefix) && EndsWith(fileName, FileSuffix)
    then Some(fileName[|FilePrefix|..|fileName| - |FileSuffix|])
    else None
  }

  /** The file name keeps the timestamp whole: it reads back, so distinct
      timestamps never share a file. */
  lemma FileNameReadsBack(stamp: string)
    ensures StampOf(FileName(stamp)) == Some(stamp)
  {
    var f := FileName(stamp);
    assert f[..|FilePrefix|] == FilePrefix;
    assert f[|f| - |FileSuffix|..] == FileSuffix;
    assert f[|FilePrefix|..|f| - |FileSuffix|] == stamp;
  }

  /** The rule of 70 `=` that frames the document. */
  const Rule := Repeat('=', 70)

  /** Everything the document holds before the saved text. */
  function Preamble(generated: string): string
  {
    "\n" + Rule + "\n                MELBOURNE EVENT AND NEWS DISCOVERY RESULTS\n" + Rule
    + "\nGenerated: " + generated + "\nLocation: Melbourne, Victoria, Australia\n\n"
  }

  /** Everything the document holds after the saved text. */
  const Closing := "\n\n" + Rule
    + "\nNote: Please verify event details and news on official sources before relying on this information.\n"
    + "\nRecommended Melbourne event sources:\n- TimeOut Melbourne\n- Eventbrite Melbourne\n- What's On Melbourne\n"
    + "- The Age (local newspaper)\n- Herald Sun (local newspaper)\n" + Rule + "\n    "

  /** The document written to the file. */
  function Document(eventData: string, generated: string): string
  {
    Preamble(generated) + eventData + Closing
  }

  /** Reads the saved text back out of a document with the given
      "Generated:" stamp. */
  function DataOf(document: string, generated: string): Option<string>
  {
    var pre := Preamble(generated);
    if |pre| + |Closing| <= |document| && StartsWith(document, pre) && EndsWith(document, Closing)
    then Some(document[|pre|..|document| - |Closing|])
    else None
  }

  /** What one call did: the file it aimed at, the document it tried to
      write there, and the message it returned. */
  datatype Saved = Saved(fileName: string, content: string, message: string)

  const SavedMessage := "Events and news successfully saved to "
  const ErrorMessage := "Error saving file: "

  /** `save_events(event_data)`. The file name carries the timestamp, the
      document holds the given text verbatim between the fixed banners, and
      the message either names the file or reports the write failure; a
      failed write never escapes as an error. */
  function SaveEvents(eventData: string, fileStamp: string, generated: string, outcome: WriteOutcome): (s: Saved)
    ensures StampOf(s.fileName) == Some(fileStamp)
    ensures DataOf(s.content, generated) == Some(eventData)
    ensures Contains(s.content, eventData)
    ensures outcome.Written? ==> s.message == SavedMessage + s.fileName
    ensures outcome.WriteFailed? ==> s.message == ErrorMessage + outcome.reason
  {
    var fileName := FileName(fileStamp);
    var content := Document(eventData, generated);
    FileNameReadsBack(fileStamp);
    Framed(Preamble(generated), eventData, Closing);
    var message := match outcome
      case Written => SavedMessage + fileName
      case WriteFailed(reason) => ErrorMessage + reason;
    Saved(fileName, content, message)
  }

  /** The returned message reports an error exactly when the write failed. */
  lemma MessageReportsFailure(eventData: string, fileStamp: string, generated: string, outcome: WriteOutcome)
    ensures StartsWith(SaveEvents(eventData, fileStamp, generated, outcome).message, ErrorMessage)
            <==> outcome.WriteFailed?
  {
    var s := SaveEvents(eventData, fileStamp, generated, outcome);
    if outcome.WriteFailed? {
      StartsWithPrefix(ErrorMessage, outcome.reason);
    } else {
      SavedMessageIsNoError(s.fileName);
    }
  }

  lemma SavedMessageIsNoError(fileName: string)
    ensures !StartsWith(SavedMessage + fileName, ErrorMessage)
  {
    var m := SavedMessage + fileName;
    assert m[1] == 'v' != ErrorMessage[1];
  }
}

=== FILE: search.dfy ===
/** The two search tools (`search_local_events` and `search_melbourne_news`):
    each rewrites its argument into a fixed list of query variants, runs a
    web search on every variant in order, and concatenates one entry per
    variant under a banner. The web search itself is a parameter: a function
    giving, for a query text, either the result text or the failure it
    raised. */
module Search {
  import opened Text

  /** What one web search on one query text did. */
  datatype SearchOutcome = Found(text: string) | Failed(reason: string)

  /** Which of the two tools is running; it fixes the wording of entries. */
  datatype Kind = LocalEvents | MelbourneNews

  /** The five rewrites of an event query, in the order they are searched. */
  function EventVariants(query: string): (v: seq<string>)
    ensures |v| == 5
    ensures forall k :: 0 <= k < |v| ==> Contains(v[k], query)
  {
    var v := [
      query + " events in Melbourne Australia this week",
      query + " in Melbourne VIC upcoming events",
      "things to do Melbourne " + query + " this weekend",
      "Melbourne " + query + " February 2026",
      "Melbourne Australia " + query + " news today"
    ];
    assert v[0][0..|query|] == query && v[1][0..|query|] == query;
    assert v[2][23..23 + |query|] == query;
    assert v[3][10..10 + |query|] == query;
    assert v[4][20..20 + |query|] == query;
    assert OccursAt(v[0], query, 0) && OccursAt(v[1], query, 0) && OccursAt(v[2], query, 23)
        && OccursAt(v[3], query, 10) && OccursAt(v[4], query, 20);
    v
  }

  /** The three rewrites of a news topic, in the order they are searched. */
  function NewsVariants(topic: string): (v: seq<string>)
    ensures |v| == 3
    ensures forall k :: 0 <= k < |v| ==> Contains(v[k], topic)
  {
    var v := [
      "Melbourne Australia " + topic + " news today",
      "Melbourne " + topic + " latest updates",
      "Victoria Australia " + topic + " news"
    ];
    assert v[0][20..20 + |topic|] == topic;
    assert v[1][10..10 + |topic|] == topic;
    assert v[2][19..19 + |topic|] == topic;
    assert OccursAt(v[0], topic, 20) && OccursAt(v[1], topic, 10) && OccursAt(v[2], topic, 19);
    v
  }

  function Variants(kind: Kind, query: string): seq<string>
  {
    match kind
    case LocalEvents => EventVariants(query)
    case MelbourneNews => NewsVariants(query)
  }

  /** The variants of one query are pairwise distinct (their fixed parts
      have different lengths), so no variant's search stands in for another's. */
  lemma VariantsDistinct(kind: Kind, query: string)
    ensures forall i, j :: 0 <= i < j < |Variants(kind, query)| ==> Variants(kind, query)[i] != Variants(kind, query)[j]
  {
    var v := Variants(kind, query);
    match kind
    case LocalEvents =>
      assert |v[0]| == |query| + 40 && |v[1]| == |query| + 33 && |v[2]| == |query| + 36
          && |v[3]| == |query| + 24 && |v[4]| == |query| + 31;
    case MelbourneNews =>
      assert |v[0]| == |query| + 31 && |v[1]| == |query| + 25 && |v[2]| == |query| + 24;
  }

  function FailurePrefix(kind: Kind): string
  {
    match kind
    case LocalEvents => "Search failed for '"
    case MelbourneNews => "News search failed for '"
  }

  /** The entry one variant contributes: its results under the variant's
      text, or the failure message naming the variant. */
  function Entry(kind: Kind, variant: string, outcome: SearchOutcome): string
  {
    match (kind, outcome)
    case (LocalEvents, Found(text)) => "Search Query: " + variant + "\n\nResults:\n" + text
    case (MelbourneNews, Found(text)) => "News Search: " + variant + "\n\nResults:\n" + text
    case (_, Failed(reason)) => FailurePrefix(kind) + variant + "': " + reason
  }

  /** Tells a failure entry from a results entry by its opening words. */
  predicate IsFailureEntry(kind: Kind, entry: string)
  {
    StartsWith(entry, FailurePrefix(kind))
  }

  /** An entry is failure-shaped exactly when its search failed. */
  lemma EntryShowsOutcome(kind: Kind, variant: string, outcome: SearchOutcome)
    ensures IsFailureEntry(kind, Entry(kind, variant, outcome)) <==> outcome.Failed?
  {
    var e := Entry(kind, variant, outcome);
    var p := FailurePrefix(kind);
    if outcome.Failed? {
      assert e == p + (variant + "': " + outcome.reason);
      assert e[..|p|] == p;
    } else {
      match kind
      case LocalEvents => assert e[7] == 'Q' != p[7];
      case MelbourneNews => assert e[5] == 'S' != p[5];
    }
  }

  /** The loop over the variants: every variant is searched, in order, and
      contributes exactly one entry whether its search succeeded or failed. */
  function RunVariants(kind: Kind, variants: seq<string>, search: string -> SearchOutcome): (entries: seq<string>)
    ensures |entries| == |variants|
    ensures forall k :: 0 <= k < |variants| ==> entries[k] == Entry(kind, variants[k], search(variants[k]))
    decreases |variants|
  {
    if |variants| == 0 then []
    else
      var last := variants[|variants| - 1];
      RunVariants(kind, variants[..|variants| - 1], search) + [Entry(kind, last, search(last))]
  }

  /** The banner the combined text starts with. */
  const Banner := "\n\n" + Repeat('=', 60)

  /** The tool's return value: the banner, then the entries separated by
      blank lines. Nothing separates the banner from the first entry. */
  function Aggregate(entries: seq<string>): string
  {
    Banner + Join("\n\n", entries)
  }

  /** `search_local_events(query)` or `search_melbourne_news(topic)`. */
  function RunSearchTool(kind: Kind, query: string, search: string -> SearchOutcome): (r: string)
    ensures var variants := Variants(kind, query);
            exists entries ::
              && r == Aggregate(entries)
              && |entries| == |variants|
              && forall k :: 0 <= k < |variants| ==> entries[k] == Entry(kind, variants[k], search(variants[k]))
  {
    Aggregate(RunVariants(kind, Variants(kind, query), search))
  }

  /** A failed variant never stops the later ones: whichever variants fail,
      the entries of the others are the entries they would have had anyway,
      and the failed ones are exactly the failure-shaped entries. */
  lemma FailureDoesNotStopLaterVariants(kind: Kind, query: string, s1: string -> SearchOutcome, s2: string -> SearchOutcome)
    ensures var v := Variants(kind, query);
            var e1 := RunVariants(kind, v, s1);
            var e2 := RunVariants(kind, v, s2);
            && |e1| == |e2| == |v|
            && (forall k :: 0 <= k < |v| && s1(v[k]) == s2(v[k]) ==> e1[k] == e2[k])
            && (forall k :: 0 <= k < |v| ==> (IsFailureEntry(kind, e1[k]) <==> s1(v[k]).Failed?))
  {
    var v := Variants(kind, query);
    forall k | 0 <= k < |v|
      ensures IsFailureEntry(kind, RunVariants(kind, v, s1)[k]) <==> s1(v[k]).Failed?
    {
      EntryShowsOutcome(kind, v[k], s1(v[k]));
    }
  }
}

=== FILE: text.dfy ===
/** The handful of Python string operations the agent's pure logic is built
    from: `str.lower`, `str.split` on one character, `str.join`, `str.strip`,
    the substring test `k in s`, `str(n)` for non-negative integers and the
    repetition `c * n`. Each is defined once here and characterised by its
    contract, so the modules that model the program can reason about the
    strings they build. */
module Text {

  /* ---------------------------------------------------------------- */
  /* Substring containment                                            */
  /* ---------------------------------------------------------------- */

  /** `k` occurs in `s` starting at index `i`. */
  predicate OccursAt(s: string, k: string, i: int)
  {
    0 <= i && i + |k| <= |s| && s[i..i + |k|] == k
  }

  predicate StartsWith(s: string, p: string)
  {
    |p| <= |s| && s[..|p|] == p
  }

  predicate EndsWith(s: string, p: string)
  {
    |p| <= |s| && s[|s| - |p|..] == p
  }

  /** Python's `k in s` on strings: `k` occurs somewhere in `s`. */
  function Contains(s: string, k: string): (b: bool)
    ensures b <==> exists i :: OccursAt(s, k, i)
    decreases |s|
  {
    if StartsWith(s, k) then
      assert OccursAt(s, k, 0);
      true
    else if |s| == 0 then
      false
    else
      ContainsShift(s, k);
      Contains(s[1..], k)
  }

  /** When `s` does not start with `k`, the occurrences of `k` in `s` are
      exactly those in `s[1..]`, shifted by one. */
  lemma ContainsShift(s: string, k: string)
    requires |s| > 0 && !StartsWith(s, k)
    ensures (exists i :: OccursAt(s[1..], k, i)) <==> (exists i :: OccursAt(s, k, i))
  {
    forall i | OccursAt(s[1..], k, i)
      ensures OccursAt(s, k, i + 1)
    {
      assert s[1..][i..i + |k|] == s[i + 1..i + 1 + |k|];
    }
    forall i | OccursAt(s, k, i)
      ensures OccursAt(s[1..], k, i - 1)
    {
      assert i != 0;
      assert forall j :: 0 <= j < |k| ==> k[j] == s[i + j] == s[1..][i - 1 + j];
      assert s[1..][i - 1..i - 1 + |k|] == s[i..i + |k|];
    }
  }

  /** Every string holds itself. */
  lemma ContainsItself(s: string)
    ensures Contains(s, s)
  {
    assert OccursAt(s, s, 0);
  }

  /** An occurrence survives text appended after it. */
  lemma ContainsBefore(t: string, b: string, x: string)
    requires Contains(t, x)
    ensures Contains(t + b, x)
  {
    var i :| OccursAt(t, x, i);
    assert (t + b)[i..i + |x|] == t[i..i + |x|];
    assert OccursAt(t + b, x, i);
  }

  /** An occurrence survives text put in front of it, shifted by its length. */
  lemma ContainsAfter(a: string, t: string, x: string)
    requires Contains(t, x)
    ensures Contains(a + t, x)
  {
    var i :| OccursAt(t, x, i);
    assert (a + t)[|a| + i..|a| + i + |x|] == t[i..i + |x|];
    assert OccursAt(a + t, x, |a| + i);
  }

  /* ---------------------------------------------------------------- */
  /* Join and split                                                   */
  /* ---------------------------------------------------------------- */

  /** The number of characters in all the parts together. */
  function TotalLength(parts: seq<string>): nat
    decreases |parts|
  {
    if |parts| == 0 then 0 else |parts[0]| + TotalLength(parts[1..])
  }

  /** The total length of `n` copies of something `width` long. */
  function Repeated(n: nat, width: nat): nat
  {
    if n == 0 then 0 else width + Repeated(n - 1, width)
  }

  /** Python's `sep.join(parts)`: no parts give the empty string, one part
      is returned as it is, and otherwise the result holds every part and
      one separator between each two neighbours. */
  function Join(sep: string, parts: seq<string>): (r: string)
    ensures |parts| == 0 ==> r == ""
    ensures |parts| == 1 ==> r == parts[0]
    ensures |parts| > 0 ==> |r| == TotalLength(parts) + Repeated(|parts| - 1, |sep|)
    ensures |parts| > 1 ==> r[..|parts[0]| + |sep|] == parts[0] + sep
    ensures forall k :: 0 <= k < |parts| ==> Contains(r, parts[k])
    decreases |parts|
  {
    if |parts| == 0 then ""
    else if |parts| == 1 then
      ContainsItself(parts[0]);
      parts[0]
    else
      var head := parts[0] + sep;
      var rest := Join(sep, parts[1..]);
      assert forall k :: 0 <= k < |parts| ==> Contains(head + rest, parts[k]) by {
        forall k | 0 <= k < |parts|
          ensures Contains(head + rest, parts[k])
        {
          if k == 0 {
            ContainsItself(parts[0]);
            ContainsBefore(parts[0], sep, parts[0]);
            ContainsBefore(head, rest, parts[0]);
          } else {
            assert parts[k] == parts[1..][k - 1];
            ContainsAfter(head, rest, parts[k]);
          }
        }
      }
      head + rest
  }

  /** A non-empty join begins with its first part. */
  lemma JoinStartsWithFirst(sep: string, parts: seq<string>)
    requires |parts| > 0
    ensures StartsWith(Join(sep, parts), parts[0])
  {
    var r := Join(sep, parts);
    if |parts| > 1 {
      assert r == parts[0] + (sep + Join(sep, parts[1..]));
    }
    assert r[..|parts[0]|] == parts[0];
  }

  /** Python's `s.split(sep)` for a one-character separator: the pieces
      between separators, in order, with an empty piece wherever two
      separators are adjacent or one sits at either end. */
  function Split(s: string, sep: char): (parts: seq<string>)
    ensures |parts| >= 1
    ensures forall i :: 0 <= i < |parts| ==> sep !in parts[i]
    ensures Join([sep], parts) == s
    decreases |s|
  {
    if |s| == 0 then [""]
    else
      var rest := Split(s[1..], sep);
      SplitStepJoins(s, sep, rest);
      SplitStep(s[0], sep, rest)
  }

  /** The pieces of `[c] + t`, given the pieces `rest` of `t`: a separator
      opens a new empty piece, any other character joins the first piece. */
  function SplitStep(c: char, sep: char, rest: seq<string>): seq<string>
    requires |rest| >= 1
  {
    if c == sep then [""] + rest else [[c] + rest[0]] + rest[1..]
  }

  lemma SplitStepJoins(s: string, sep: char, rest: seq<string>)
    requires |s| > 0 && |rest| >= 1
    requires forall i :: 0 <= i < |rest| ==> sep !in rest[i]
    requires Join([sep], rest) == s[1..]
    ensures var parts := SplitStep(s[0], sep, rest);
            && |parts| >= 1
            && (forall i :: 0 <= i < |parts| ==> sep !in parts[i])
            && Join([sep], parts) == s
  {
    SplitStepPieces(s[0], sep, rest);
    PeelFirst(s, s[0], []);
    if s[0] == sep {
      JoinAtSeparator(sep, rest);
    } else {
      JoinGlue([sep], [s[0]], rest);
    }
  }

  /** An empty first piece contributes only the separator after it. */
  lemma JoinAtSeparator(sep: char, rest: seq<string>)
    requires |rest| >= 1
    ensures Join([sep], [""] + rest) == [sep] + Join([sep], rest)
  {
    JoinCons([sep], "", rest);
    assert "" + [sep] == [sep];
  }

  lemma SplitStepPieces(c: char, sep: char, rest: seq<string>)
    requires |rest| >= 1
    requires forall i :: 0 <= i < |rest| ==> sep !in rest[i]
    ensures var parts := SplitStep(c, sep, rest);
            && |parts| >= 1
            && forall i :: 0 <= i < |parts| ==> sep !in parts[i]
  {
    var parts := SplitStep(c, sep, rest);
    if c == sep {
      assert forall i :: 0 < i < |parts| ==> parts[i] == rest[i - 1];
    } else {
      assert forall i :: 0 < i < |parts| ==> parts[i] == rest[i];
      assert sep !in parts[0];
    }
  }

  /** Joining a part in front of a non-empty list puts it and a separator
      before the join of the list. */
  lemma JoinCons(sep: string, p: string, parts: seq<string>)
    requires |parts| > 0
    ensures Join(sep, [p] + parts) == p + sep + Join(sep, parts)
  {
    assert ([p] + parts)[0] == p && ([p] + parts)[1..] == parts;
  }

  /** Gluing text onto the front of the first part glues it onto the front
      of the join. */
  lemma JoinGlue(sep: string, x: string, parts: seq<string>)
    requires |parts| > 0
    ensures Join(sep, [x + parts[0]] + parts[1..]) == x + Join(sep, parts)
  {
    if |parts| > 1 {
      var tail := Join(sep, parts[1..]);
      JoinCons(sep, x + parts[0], parts[1..]);
      assert parts == [parts[0]] + parts[1..];
      JoinCons(sep, parts[0], parts[1..]);
      ConcatAssoc(x, parts[0], sep);
      ConcatAssoc(x, parts[0] + sep, tail);
    }
  }

  /** A piece free of the separator splits to itself. */
  lemma {:induction false} SplitNoSeparator(w: string, sep: char)
    requires sep !in w
    ensures Split(w, sep) == [w]
    decreases |w|
  {
    if |w| > 0 {
      SplitNoSeparator(w[1..], sep);
      assert [w[0]] + w[1..] == w;
    }
  }

  /** Splitting peels a separator-free first piece off the front. */
  lemma {:induction false} SplitPeel(w: string, sep: char, t: string)
    requires sep !in w
    ensures Split(w + [sep] + t, sep) == [w] + Split(t, sep)
    decreases |w|
  {
    var s := w + [sep] + t;
    if |w| == 0 {
      assert s[1..] == t;
    } else {
      var u := w[1..] + [sep] + t;
      PeelFirst(w, sep, t);
      SplitPeel(w[1..], sep, t);
      SplitCons(w[0], u, sep);
    }
  }

  /** Splitting a string that opens with a non-separator glues that
      character onto the first piece of the rest. */
  lemma SplitCons(ch: char, u: string, sep: char)
    requires ch != sep
    ensures Split([ch] + u, sep) == [[ch] + Split(u, sep)[0]] + Split(u, sep)[1..]
  {
    assert ([ch] + u)[0] == ch && ([ch] + u)[1..] == u;
  }

  /** Splitting undoes joining, provided no piece holds the separator; with
      the `Join` clause of `Split`'s contract this makes the two inverses. */
  lemma {:induction false} SplitJoin(parts: seq<string>, sep: char)
    requires |parts| >= 1
    requires forall i :: 0 <= i < |parts| ==> sep !in parts[i]
    ensures Split(Join([sep], parts), sep) == parts
    decreases |parts|
  {
    if |parts| == 1 {
      SplitNoSeparator(parts[0], sep);
    } else {
      SplitJoin(parts[1..], sep);
      SplitPeel(parts[0], sep, Join([sep], parts[1..]));
      assert [parts[0]] + parts[1..] == parts;
    }
  }

  /* ---------------------------------------------------------------- */
  /* Case and whitespace                                              */
  /* ---------------------------------------------------------------- */

  predicate IsUpper(c: char)
  {
    'A' <= c <= 'Z'
  }

  function LowerChar(c: char): char
  {
    if IsUpper(c) then (c as int + ('a' as int - 'A' as int)) as char else c
  }

  /** `str.lower` on the ASCII letters. */
  function Lower(s: string): (r: string)
    ensures |r| == |s|
    ensures forall k :: 0 <= k < |r| ==> !IsUpper(r[k])
    ensures forall k :: 0 <= k < |s| && !IsUpper(s[k]) ==> r[k] == s[k]
    ensures forall k :: 0 <= k < |s| && IsUpper(s[k]) ==> r[k] as int == s[k] as int + 32
  {
    seq(|s|, k requires 0 <= k < |s| => LowerChar(s[k]))
  }

  /** The characters Python's `str.isspace` accepts. */
  predicate IsSpace(c: char)
  {
    || c == ' '
    || '\t' <= c <= '\r'
    || '\U{1C}' <= c <= '\U{1F}'
    || c == '\U{85}' || c == '\U{A0}' || c == '\U{1680}'
    || '\U{2000}' <= c <= '\U{200A}'
    || c == '\U{2028}' || c == '\U{2029}' || c == '\U{202F}'
    || c == '\U{205F}' || c == '\U{3000}'
  }

  function LeadingSpaces(s: string): (n: nat)
    ensures n <= |s|
    ensures forall k :: 0 <= k < n ==> IsSpace(s[k])
    ensures n < |s| ==> !IsSpace(s[n])
    decreases |s|
  {
    if |s| > 0 && IsSpace(s[0]) then 1 + LeadingSpaces(s[1..]) else 0
  }

  function TrailingSpaces(s: string): (n: nat)
    ensures n <= |s|
    ensures forall k :: |s| - n <= k < |s| ==> IsSpace(s[k])
    ensures n < |s| ==> !IsSpace(s[|s| - n - 1])
    decreases |s|
  {
    if |s| > 0 && IsSpace(s[|s| - 1]) then 1 + TrailingSpaces(s[..|s| - 1]) else 0
  }

  /** `s[i..j]` is what is left of `s` once the whitespace before `i` and from
      `j` on is removed, and it neither begins nor ends with whitespace. */
  predicate StripBounds(s: string, i: int, j: int)
  {
    && 0 <= i <= j <= |s|
    && (forall k :: 0 <= k < i ==> IsSpace(s[k]))
    && (forall k :: j <= k < |s| ==> IsSpace(s[k]))
    && (i < j ==> !IsSpace(s[i]) && !IsSpace(s[j - 1]))
  }

  /** Python's `str.strip()` with no argument. */
  function Strip(s: string): (r: string)
    ensures exists i, j :: StripBounds(s, i, j) && r == s[i..j]
  {
    var i := LeadingSpaces(s);
    var t := s[i..];
    var n := TrailingSpaces(t);
    var j := |s| - n;
    assert forall k :: j <= k < |s| ==> s[k] == t[k - i];
    assert i < j ==> n < |t| && s[i] == t[0] && s[j - 1] == t[|t| - n - 1];
    assert StripBounds(s, i, j);
    s[i..j]
  }

  /** Stripping introduces no character that was not there. */
  lemma StripKeepsAbsent(s: string, c: char)
    requires c !in s
    ensures c !in Strip(s)
  {
    var r := Strip(s);
    var i, j :| StripBounds(s, i, j) && r == s[i..j];
    forall m | 0 <= m < |r|
      ensures r[m] != c
    {
      assert r[m] == s[i + m];
    }
  }

  /** An occurrence inside a slice is an occurrence in the whole. */
  lemma OccursInSlice(s: string, k: string, i: int, j: int, p: int)
    requires 0 <= i <= j <= |s| && OccursAt(s[i..j], k, p)
    ensures OccursAt(s, k, i + p)
  {
    var r := s[i..j];
    forall m | 0 <= m < |k|
      ensures s[i + p + m] == k[m]
    {
      assert r[p..p + |k|][m] == r[p + m] == s[i + p + m];
    }
    assert s[i + p..i + p + |k|] == k;
  }

  /** An occurrence of a pattern with non-space ends lies inside the
      stripped bounds. */
  lemma OccursInsideBounds(s: string, k: string, i: int, j: int, p: int)
    requires |k| > 0 && !IsSpace(k[0]) && !IsSpace(k[|k| - 1])
    requires StripBounds(s, i, j) && OccursAt(s, k, p)
    ensures OccursAt(s[i..j], k, p - i)
  {
    assert s[p] == s[p..p + |k|][0] == k[0];
    assert s[p + |k| - 1] == s[p..p + |k|][|k| - 1] == k[|k| - 1];
    assert i <= p;
    assert p + |k| <= j;
    var r := s[i..j];
    forall m | 0 <= m < |k|
      ensures r[p - i + m] == k[m]
    {
      assert s[p..p + |k|][m] == s[p + m] == r[p - i + m];
    }
    assert r[p - i..p - i + |k|] == k;
  }

  /** Stripping only removes whitespace at the ends, so a pattern that
      neither begins nor ends with whitespace occurs in the stripped string
      exactly when it occurs in the original. */
  lemma StripKeepsOccurrences(s: string, k: string)
    requires |k| > 0 && !IsSpace(k[0]) && !IsSpace(k[|k| - 1])
    ensures Contains(Strip(s), k) <==> Contains(s, k)
  {
    var r := Strip(s);
    var i, j :| StripBounds(s, i, j) && r == s[i..j];
    if Contains(r, k) {
      var p :| OccursAt(r, k, p);
      OccursInSlice(s, k, i, j, p);
    }
    if Contains(s, k) {
      var p :| OccursAt(s, k, p);
      OccursInsideBounds(s, k, i, j, p);
    }
  }

  /* ---------------------------------------------------------------- */
  /* Decimal rendering and repetition                                 */
  /* ---------------------------------------------------------------- */

  predicate IsDigit(c: char)
  {
    '0' <= c <= '9'
  }

  predicate AllDigits(s: string)
  {
    forall k :: 0 <= k < |s| ==> IsDigit(s[k])
  }

  function DigitValue(c: char): nat
    requires IsDigit(c)
  {
    c as int - '0' as int
  }

  /** The number a string of decimal digits denotes. */
  function DigitsValue(s: string): nat
    requires AllDigits(s)
    decreases |s|
  {
    if |s| == 0 then 0 else 10 * DigitsValue(s[..|s| - 1]) + DigitValue(s[|s| - 1])
  }

  function DigitChar(d: nat): (c: char)
    requires d < 10
    ensures IsDigit(c) && DigitValue(c) == d
  {
    (d + '0' as int) as char
  }

  /** Python's `str(n)` for `n >= 0`: the canonical decimal digits of `n`,
      with no leading zero, that read back as `n`. */
  function NatToString(n: nat): (r: string)
    ensures |r| >= 1 && AllDigits(r)
    ensures |r| > 1 ==> r[0] != '0'
    ensures DigitsValue(r) == n
    decreases n
  {
    if n < 10 then [DigitChar(n)]
    else
      var prefix := NatToString(n / 10);
      var r := prefix + [DigitChar(n % 10)];
      assert r[..|r| - 1] == prefix;
      r
  }

  /** Distinct numbers render differently. */
  lemma NatToStringInjective(a: nat, b: nat)
    requires NatToString(a) == NatToString(b)
    ensures a == b
  {
  }

  /** The length of the run of decimal digits that `s` starts with. */
  function LeadingDigits(s: string): (n: nat)
    ensures n <= |s|
    ensures AllDigits(s[..n])
    ensures n < |s| ==> !IsDigit(s[n])
    decreases |s|
  {
    if |s| > 0 && IsDigit(s[0]) then
      var n := 1 + LeadingDigits(s[1..]);
      assert s[..n] == [s[0]] + s[1..][..n - 1];
      n
    else 0
  }

  /** A digit run followed by a non-digit is exactly what `LeadingDigits`
      measures. */
  lemma LeadingDigitsOf(d: string, c: char, t: string)
    requires AllDigits(d) && !IsDigit(c)
    ensures LeadingDigits(d + [c] + t) == |d|
  {
    var s := d + [c] + t;
    assert s[|d|] == c;
  }

  /** A string framed by a prefix and a suffix starts and ends with them,
      and the framed string occurs between them. */
  lemma Framed(p: string, x: string, q: string)
    ensures StartsWith(p + x + q, p) && EndsWith(p + x + q, q)
    ensures (p + x + q)[|p|..|p + x + q| - |q|] == x
    ensures OccursAt(p + x + q, x, |p|)
  {
    var s := p + x + q;
    assert s[..|p|] == p;
    assert s[|s| - |q|..] == q;
    assert s[|p|..|p| + |x|] == x;
  }

  /** An index into a concatenation lands in one of its two halves. */
  lemma IndexConcat<T>(a: seq<T>, b: seq<T>, k: int)
    requires 0 <= k < |a + b|
    ensures (a + b)[k] == if k < |a| then a[k] else b[k - |a|]
  {
  }

  /** A string starts with any prefix it was built from. */
  lemma StartsWithPrefix(p: string, x: string)
    ensures StartsWith(p + x, p)
  {
    assert (p + x)[..|p|] == p;
  }

  /** Taking the first element off a non-empty front. */
  lemma PeelFirst<T>(w: seq<T>, x: T, t: seq<T>)
    requires |w| > 0
    ensures w + [x] + t == [w[0]] + (w[1..] + [x] + t)
    ensures [w[0]] + w[1..] == w
  {
    assert w == [w[0]] + w[1..];
  }

  /** Putting nothing between two strings just joins them. */
  lemma EmptyBetween(a: string, b: string)
    ensures a + "" + b == a + b
  {
    assert a + "" == a;
  }

  /** Concatenation is associative. */
  lemma ConcatAssoc<T>(a: seq<T>, b: seq<T>, c: seq<T>)
    ensures a + (b + c) == (a + b) + c
  {
  }

  /** A non-empty sequence is its front followed by its last element. */
  lemma FrontAndLast<T>(s: seq<T>)
    requires |s| > 0
    ensures s[..|s| - 1] + [s[|s| - 1]] == s
  {
    var r := s[..|s| - 1] + [s[|s| - 1]];
    assert forall k :: 0 <= k < |s| ==> r[k] == s[k];
  }

  /** Two strings that end in the same text agree before it. */
  lemma SameBefore(x: string, y: string, t: string)
    requires x + t == y + t
    ensures x == y
  {
    assert x == (x + t)[..|x|] && y == (y + t)[..|y|];
  }

  /** Two strings between the same prefix and suffix agree. */
  lemma SameBetween(p: string, x: string, y: string, t: string)
    requires p + x + t == p + y + t
    ensures x == y
  {
    SameBefore(p + x, p + y, t);
    assert x == (p + x)[|p|..] && y == (p + y)[|p|..];
  }

  /** Python's `c * n` for a one-character string `c`. */
  function Repeat(c: char, n: nat): (r: string)
    ensures |r| == n
    ensures forall k :: 0 <= k < n ==> r[k] == c
  {
    seq(n, _ => c)
  }
}

=== FILE: wrappers.dfy ===
/** Failure-carrying values used across the model: an optional value and a
    value-or-error result, standing in for Python's `None` and for the
    branches where the program reports an error instead of a value. */
module Wrappers {

  datatype Option<+T> = None | Some(value: T)

  datatype Result<+T, +E> = Ok(value: T) | Err(error: E)
}
